=== FILE: README.md ===
# Emergency dispatch in MatriBandhob / Matri-Force, modelled in Dafny

This project models the emergency-dispatch state machine of the maternal-health
platform. Three clients share one real-time store: the patient app raises an SOS,
the doctor console pairs the alert with a driver, and the driver app rings,
accepts, arrives, starts the trip and completes it. In the source these are React
event handlers reading and writing the store. Here each handler is a pure
transition function over an immutable `Store`:

- `sos_alerts`: patient id → `Alert`
- `drivers`: driver id → `Driver`
- `doctor_alerts` and `trips`: append-only logs
- `chats/{patientId}` and `users/{uid}/savings`, for the two patient writes that touch them

Every write to a record path (`sos_alerts/{id}`, `drivers/{id}`, `users/{uid}/savings`)
is a `set` (a full overwrite), an `update` (a merge-patch of a few named fields) or a
`remove`; the logs grow by `push` or `addDoc`, which append one entry. A merge-patch is Dafny's datatype update
`r.(status := …)`. Because `update` on an absent path creates the record, every
record field is an `Option`, with two exceptions: `Savings.current` is an `int`
(`increment` counts from 0) and `Alert.notifiedContacts` is a sequence (empty when absent). Each handler's contract says three things:

1. which fields of which record it sets (for a `set`, every field of the new record, since a `set` replaces the whole record);
2. for an `update`, that every other field of that record is unchanged;
3. that every other record and store path is unchanged.

The last two are written as `SameExcept` and as `r.(alerts := s.alerts) == s`.

JavaScript truthiness is modelled explicitly by `SharedStore.Truthy`: an absent
field and `""` are both falsy. As a result, the triage list shows an alert whose
status is absent, empty or `"RED"`.

Modules:

- `Optional`: `Option`.
- `SharedStore`: the records, the store, and the status strings.
- `DoctorConsole`: `matri-force/src/app/doctor/page.tsx`.
- `DriverApp`: `matribandhob/src/app/driver/page.tsx`.
- `PatientApp`: `matribandhob/src/app/patient/page.tsx`.
- `Scenarios`: lemmas about how the three clients affect each other through the store.

The handlers are modelled as written, including behaviours a reader might not expect:

- The console writes `DISPATCHED` and the driver writes `DRIVER_ACCEPTED`; nothing maps one to the other.
- Nothing enforces exclusive assignment. `DispatchOverwritesAssignment` shows a busy driver being reassigned.
- A dispatch to a removed alert is not refused. The write recreates a stub alert (`DispatchRecreatesGoneAlert`).
- Manual clear does not release the driver (`ClearLeavesDriverAssigned`).
- Completion does not remove the alert. It marks it `RESOLVED`, and the alert then appears in neither list (`CompleteKeepsAlert`).
- Toggling offline mid-mission overwrites `busy` with `offline`. This puts the driver back on offer (`ToggleMidMissionReoffers`).
- Once the driver accepts, the console's two lists both drop the alert, because missions only shows `DISPATCHED` (`AcceptLeavesBothLists`).
- Declining writes nothing, so the assignment listener rings again for the same patient (`DeclineRingsAgain`).

## Model

| member | source | states |
|---|---|---|
| DoctorConsole.Listing | matri-force/src/app/doctor/page.tsx:76-96 | the alerts and drivers listeners give one entry per key, tagged with that key and carrying its record, with no key twice; an absent (empty) snapshot gives the empty list |
| DoctorConsole.Keep | matri-force/src/app/doctor/page.tsx:228 | a filtered list holds exactly the entries of the input whose record passes the test, and is no longer than the input |
| DoctorConsole.TriageList | matri-force/src/app/doctor/page.tsx:228 | triage shows exactly the alerts whose status is absent, empty or "RED" |
| DoctorConsole.MissionsList | matri-force/src/app/doctor/page.tsx:247 | missions shows exactly the alerts whose status is "DISPATCHED" |
| DoctorConsole.AvailableDrivers | matri-force/src/app/doctor/page.tsx:356 | the dispatch modal offers exactly the drivers whose status is not "busy" |
| DoctorConsole.ListsDisjoint | matri-force/src/app/doctor/page.tsx:228-247 | no alert is in both lists; an alert in DRIVER_ACCEPTED, DRIVER_ARRIVED or RESOLVED is in neither |
| DoctorConsole.OfferedDrivers | matri-force/src/app/doctor/page.tsx:356 | a busy driver is never offered; an offline driver, or one with no status, is offered |
| DoctorConsole.Dispatch | matri-force/src/app/doctor/page.tsx:138-148 | with no selection nothing changes; otherwise the driver becomes busy and assigned to the patient, then the alert becomes DISPATCHED to the driver, with every other field, record and path unchanged; a failed first write changes nothing, and a failed second write leaves the driver written and the alert untouched; on success the selection clears, the modal closes and the missions tab opens |
| DoctorConsole.ManualClear | matri-force/src/app/doctor/page.tsx:130-136 | once confirmed, exactly the patient's alert is removed and the selection clears; drivers and every other path are unchanged; unconfirmed, nothing changes |
| DoctorConsole.ManualClearIdempotent | matri-force/src/app/doctor/page.tsx:132 | clearing twice ends where clearing once does |
| DriverApp.FetchPatientDetails | matribandhob/src/app/driver/page.tsx:138-159 | an absent alert changes nothing; a present one opens a request for that patient and rings; the name falls back from user_name to the profile name to "Emergency Patient", and the phone falls back to "N/A", so neither is empty; the position is copied from the alert; nothing else of the app changes |
| DriverApp.AssignmentChanged | matribandhob/src/app/driver/page.tsx:114-129 | with no driver record nothing changes; an assignment seen while idle rings exactly when the assigned alert exists; no assignment outside idle resets to idle with no request; in every other case nothing changes |
| DriverApp.Decline | matribandhob/src/app/driver/page.tsx:303 | declining returns to idle with no request and changes nothing else |
| DriverApp.Accept | matribandhob/src/app/driver/page.tsx:171-176 | the stage becomes accepted; only the alert's status (DRIVER_ACCEPTED) and the driver's status (busy) change in the store |
| DriverApp.Arrive | matribandhob/src/app/driver/page.tsx:178-181 | the stage becomes arrived; the only store change is the alert's status, to DRIVER_ARRIVED |
| DriverApp.StartTrip | matribandhob/src/app/driver/page.tsx:183-187 | the store is unchanged; only the stage moves, to in_progress |
| DriverApp.Complete | matribandhob/src/app/driver/page.tsx:189-206 | the driver loses its assignment and becomes idle; the alert stays, marked RESOLVED; exactly one trip with fare 500 is appended after the earlier ones; earnings rise by 500 and rides by 1; the app is idle with no request |
| DriverApp.ToggleOnline | matribandhob/src/app/driver/page.tsx:162-169 | the online flag flips, and the driver's status becomes "idle" going online and "offline" going offline, whatever the stage; nothing else changes |
| DriverApp.PositionFix | matribandhob/src/app/driver/page.tsx:92-107 | offline, nothing is written; online, the record gets the position, time, type and the display name, or "Driver" when that is empty or absent, and its status is "idle" exactly when the stage is idle and "busy" otherwise; the assignment is untouched |
| DriverApp.Register | matribandhob/src/app/driver/page.tsx:375-382 | a newly registered driver record is offline, unassigned, of type Ambulance, carries the name and the default position 23.8103/90.4125, and has no last-update time (the `set` replaces the whole record); no other record changes |
| DriverApp.RestoredOnlineCases | matribandhob/src/app/driver/page.tsx:69-70 | the restored online flag is status ≠ "offline": a new registration restores offline, and a driver with no record restores online |
| DriverApp.Press | matribandhob/src/app/driver/page.tsx:280-339 | a button does something exactly when it is rendered: in its own stage, with a request open |
| DriverApp.StageTransitions | matribandhob/src/app/driver/page.tsx:114-206 | every event moves the stage along idle→ringing, ringing→accepted, ringing→idle, accepted→arrived, arrived→in_progress, in_progress→idle or a cancellation to idle; leaving idle for ringing happens only through the listener and only when the assigned alert exists; each button leads to its fixed stage |
| PatientApp.TriggerSos | matribandhob/src/app/patient/page.tsx:554-578 | without geolocation, or offline, nothing is written (offline falls back to an SMS to 999); online, the patient's alert is overwritten with RED, position, time, name, phone (the profile phone, else the email) and the contact list, and no driver, no other alert changes, and exactly one SOS_EMERGENCY notice with status "unresolved" is appended after the earlier ones |
| PatientApp.TrimStart | matribandhob/src/app/patient/page.tsx:938 | the result is a suffix of the input; what was dropped is all whitespace; it does not start with whitespace |
| PatientApp.TrimEnd | matribandhob/src/app/patient/page.tsx:938 | the result is a prefix of the input; what was dropped is all whitespace; it does not end with whitespace |
| PatientApp.TrimEmptyIffBlank | matribandhob/src/app/patient/page.tsx:938 | a message trims to nothing exactly when every character of it is JavaScript whitespace or a line terminator |
| PatientApp.Includes | matribandhob/src/app/patient/page.tsx:943 | the substring test holds exactly when the word occurs at some index of the text |
| PatientApp.IsCritical | matribandhob/src/app/patient/page.tsx:943 | a message is critical exactly when "bleeding", "pain" or "fainted" occurs in it verbatim |
| PatientApp.CriticalIsCaseSensitive | matribandhob/src/app/patient/page.tsx:943 | "pain" is critical and "Pain" is not |
| PatientApp.SendMessage | matribandhob/src/app/patient/page.tsx:937-968 | whitespace-only input is ignored entirely; otherwise a critical message appends exactly one CRITICAL_AI_FLAG notice carrying the text as typed, a message to a doctor is appended to that patient's chat, and nothing else changes |
| PatientApp.GestationWeek | matribandhob/src/app/patient/page.tsx:1168 | with no last-period date the week is 1; otherwise it is the floor of the elapsed milliseconds over 604800000 |
| PatientApp.GestationWeekMonotone | matribandhob/src/app/patient/page.tsx:1168 | the week never decreases as the current time increases |
| PatientApp.GestationWeekOnTheDay | matribandhob/src/app/patient/page.tsx:1168 | a last-period date of right now gives week 0, and week 1 begins exactly 604800000 ms later |
| PatientApp.Deposit | matribandhob/src/app/patient/page.tsx:521 | the saved amount rises by exactly 50 (`DepositStep`, from 0 when absent), the goal is unchanged, and nothing else changes |
| PatientApp.DepositsAccumulate | matribandhob/src/app/patient/page.tsx:521 | n deposits raise the saved amount by exactly 50·n and keep the goal (none, for a patient with no savings record yet) |
| Scenarios.EntryOf | matri-force/src/app/doctor/page.tsx:79 | in any listing, the entry tagged with a key carries that key's record |
| Scenarios.SosShowsInTriage | matribandhob/src/app/patient/page.tsx:561-566 | after an online SOS, the console's listing shows the patient in triage, unassigned and not among the missions |
| Scenarios.DispatchMovesToMissions | matri-force/src/app/doctor/page.tsx:141-142 | after a successful dispatch, the alert is in missions with its driver and not in triage, and the driver is no longer offered |
| Scenarios.DispatchRecreatesGoneAlert | matri-force/src/app/doctor/page.tsx:142 | dispatching to a removed alert recreates it with only status DISPATCHED and the driver |
| Scenarios.DispatchOverwritesAssignment | matri-force/src/app/doctor/page.tsx:141 | dispatching a busy driver moves its assignment to the new patient while the old alert still names the driver |
| Scenarios.HalfDispatch | matri-force/src/app/doctor/page.tsx:141-147 | if the alert write fails, the driver is busy and assigned and the alerts are exactly as before |
| Scenarios.DispatchRingsDriver | matribandhob/src/app/driver/page.tsx:119-120 | once both dispatch writes have landed, an idle driver's listener rings with the dispatched patient |
| Scenarios.DriverWriteAloneRings | matri-force/src/app/doctor/page.tsx:141-142 | between the two dispatch writes, an idle driver's listener rings exactly when the alert still exists, and does nothing for a removed alert |
| Scenarios.AcceptLeavesBothLists | matribandhob/src/app/driver/page.tsx:174 | once accepted, the alert is in neither the triage nor the missions list |
| Scenarios.CompleteKeepsAlert | matribandhob/src/app/driver/page.tsx:191-192 | after completion the alert is still stored but in neither list, and the driver is offered again with no assignment |
| Scenarios.ClearLeavesDriverAssigned | matri-force/src/app/doctor/page.tsx:132 | a manual clear leaves the assigned driver's record unchanged, and that driver's listener changes nothing |
| Scenarios.AcceptAfterClear | matribandhob/src/app/driver/page.tsx:174 | accepting after a clear recreates the alert holding only DRIVER_ACCEPTED |
| Scenarios.DeclineRingsAgain | matribandhob/src/app/driver/page.tsx:303 | after a decline, the listener rings again for the still-assigned patient |
| Scenarios.ToggleMidMissionReoffers | matribandhob/src/app/driver/page.tsx:166-168 | a toggle mid-mission keeps the assignment but makes the driver dispatchable again |
| Scenarios.FixRestoresBusyAfterToggle | matribandhob/src/app/driver/page.tsx:98-106 | a driver back online mid-mission is written idle by the toggle, and the next position fix writes busy again |
| Scenarios.SosAfterResolved | matribandhob/src/app/patient/page.tsx:562-566 | a new SOS over a resolved alert puts it back in triage with no driver |

## Left out

- Store I/O, listener subscription and unsubscription, and `onlyOnce` are not modelled as asynchronous callbacks. Each read and write is an atomic map operation. A listener firing is an explicit event (`DriverApp.Event.AssignmentFired`).
- Races between clients are not modelled. The code uses no locks and no transactions, and each handler is one transition.
- React closures capture stale state. For example, the driver-record listener can fire between the writes of `handleComplete`, and it then sees the old stage. The model runs each handler to completion before the next event.
- Write failures are modelled only for dispatch. The two registration handlers (driver and patient) also catch errors, but only to show a message. All other writes are assumed to succeed.
- Authentication and role gating are foreign SDK calls. The driver's id and display name, and the patient's id, name, email and profile phone, are parameters.
- Geolocation is not modelled: the position is a parameter. Map rendering, fly-to and polylines are not modelled either.
- Other console state is not modelled: toasts, confirm dialogs (`confirmed` is a parameter), the clock, the privacy toggle and the "New SOS" toast.
- The random driver telemetry (fuel, ETA) and the hospital bed simulation are not modelled.
- The doctor console's chat listener and chat send, the blood request, forum, reminders, vitals and diet features are outside the dispatch core.
- The AI route and the assistant's local reply in `sendMessage` are not modelled. Only the store writes of `sendMessage` are.
- The Firestore profile read in `fetchPatientDetails` is a parameter (`profileName`).
- `window.open` for navigation and the SMS fallback are not modelled. The SMS appears only as the `SmsFallback` outcome.
- The fixed "2.5 km" distance label is not modelled.
- The `notified_contacts` documents are abstracted as strings.
- The two `Date.now()` calls of one SOS, and the two of one `sendMessage` (the chat message and the notice), are each modelled as one time `now`.
- The savings percentage bar is floating-point display.
- The driver records of the seed data carry extra fields (phone, rating) that the dispatch handlers never read or write.
- PatientApp.GestationWeek: takes the last-period date already converted to epoch milliseconds, because parsing the date input's string is browser date handling. An invalid date giving NaN is not modelled.
- DoctorConsole.Listing: does not state the order of the entries, because the order comes from the store's key ordering, which is not part of this model.
- DoctorConsole.Keep: states membership and length, not that the original order is kept.
- Stored field values are assumed to have the JavaScript types the handlers write. For example, `assignedTo` is always a string when present.

=== FILE: doctor_console.dfy ===
/**
 * The doctor console: the listener that turns the alerts and drivers maps
 * into lists, the three filters that decide what the operator sees, and the
 * two handlers that write to the store (dispatch and manual clear).
 */
module DoctorConsole {
  import opened Optional
  import opened SharedStore

  /** One element of a listener's list: the record under a key, tagged with that key. */
  datatype Entry<T> = Entry(id: string, record: T)

  /** `l` lists `m`: one entry per key, tagged with its key, carrying that key's record. */
  ghost predicate IsListing<T>(l: seq<Entry<T>>, m: map<string, T>)
  {
    && |l| == |m|
    && (forall k :: k in m ==> Entry(k, m[k]) in l)
    && (forall e :: e in l ==> e.id in m && e.record == m[e.id])
    && (forall i, j :: 0 <= i < j < |l| ==> l[i].id != l[j].id)
  }

  /**
   * The listeners on sos_alerts and drivers: every key of the snapshot becomes
   * one entry. An absent snapshot is the empty map and yields the empty list.
   */
  method Listing<T>(m: map<string, T>) returns (l: seq<Entry<T>>)
    ensures IsListing(l, m)
    ensures m == map[] ==> l == []
  {
    l := [];
    var rest := m.Keys;
    while rest != {}
      invariant rest <= m.Keys
      invariant |l| + |rest| == |m|
      invariant forall k :: k in m && k !in rest ==> Entry(k, m[k]) in l
      invariant forall e :: e in l ==> e.id in m && e.id !in rest && e.record == m[e.id]
      invariant forall i, j :: 0 <= i < j < |l| ==> l[i].id != l[j].id
      decreases rest
    {
      var k :| k in rest;
      l := l + [Entry(k, m[k])];
      rest := rest - {k};
    }
  }

  /** The entries of `l` whose record satisfies `p`, in their original order. */
  function Keep<T(!new)>(l: seq<Entry<T>>, p: T -> bool): (r: seq<Entry<T>>)
    ensures forall e :: e in r <==> e in l && p(e.record)
    ensures |r| <= |l|
  {
    if l == [] then []
    else if p(l[0].record) then [l[0]] + Keep(l[1..], p)
    else Keep(l[1..], p)
  }

  /** Triage shows an alert whose status is falsy (absent or empty) or "RED". */
  predicate ShownInTriage(a: Alert)
  {
    !Truthy(a.status) || a.status == Some(AlertRed)
  }

  /** Missions shows an alert whose status is "DISPATCHED". */
  predicate ShownInMissions(a: Alert)
  {
    a.status == Some(AlertDispatched)
  }

  /** The dispatch modal offers every driver whose status is not "busy". */
  predicate Dispatchable(d: Driver)
  {
    d.status != Some(DriverBusy)
  }

  function TriageList(l: seq<Entry<Alert>>): (r: seq<Entry<Alert>>)
    ensures forall e :: e in r <==> e in l && (e.record.status.None? || e.record.status == Some("") || e.record.status == Some(AlertRed))
  {
    Keep(l, ShownInTriage)
  }

  function MissionsList(l: seq<Entry<Alert>>): (r: seq<Entry<Alert>>)
    ensures forall e :: e in r <==> e in l && e.record.status == Some(AlertDispatched)
  {
    Keep(l, ShownInMissions)
  }

  function AvailableDrivers(l: seq<Entry<Driver>>): (r: seq<Entry<Driver>>)
    ensures forall e :: e in r <==> e in l && e.record.status != Some(DriverBusy)
  {
    Keep(l, Dispatchable)
  }

  /** No alert is in both lists; an alert past DISPATCHED is in neither. */
  lemma ListsDisjoint(l: seq<Entry<Alert>>, e: Entry<Alert>)
    ensures !(e in TriageList(l) && e in MissionsList(l))
    ensures e.record.status in {Some(AlertAccepted), Some(AlertArrived), Some(AlertResolved)} ==>
              e !in TriageList(l) && e !in MissionsList(l)
  {
  }

  /** No busy driver is ever offered; an offline one, or one without a status, is. */
  lemma OfferedDrivers(l: seq<Entry<Driver>>, e: Entry<Driver>)
    requires e in l
    ensures e.record.status == Some(DriverBusy) ==> e !in AvailableDrivers(l)
    ensures e.record.status == Some(DriverOffline) ==> e in AvailableDrivers(l)
    ensures e.record.status.None? ==> e in AvailableDrivers(l)
  {
  }

  datatype Tab = TriageTab | MissionsTab | FleetTab | ToolsTab

  /** The console's local state that the handlers touch. */
  datatype Console = Console(selected: Option<string>, dispatchModalOpen: bool, tab: Tab)

  /** Which of the two writes of a dispatch the store rejects, if any. */
  datatype Fault = NoFault | DriverWriteFails | AlertWriteFails

  datatype Outcome = Outcome(console: Console, store: Store)

  /** The driver write of a dispatch: `d` becomes busy and assigned to `p`, nothing else changes. */
  ghost predicate DriverAssigned(m: map<string, Driver>, m': map<string, Driver>, d: string, p: string)
  {
    var before := if d in m then m[d] else NoDriver;
    && d in m'
    && m'[d].status == Some(DriverBusy)
    && m'[d].assignedTo == Some(p)
    && m'[d].(status := before.status, assignedTo := before.assignedTo) == before
    && SameExcept(m, m', d)
  }

  /** The alert write of a dispatch: `p` becomes DISPATCHED to `d`, nothing else changes. */
  ghost predicate AlertDispatchedTo(m: map<string, Alert>, m': map<string, Alert>, p: string, d: string)
  {
    var before := if p in m then m[p] else NoAlert;
    && p in m'
    && m'[p].status == Some(AlertDispatched)
    && m'[p].assignedDriver == Some(d)
    && m'[p].(status := before.status, assignedDriver := before.assignedDriver) == before
    && SameExcept(m, m', p)
  }

  /**
   * handleDispatch: with a selected patient, first merge {status busy,
   * assignedTo} into the driver, then {status DISPATCHED, assignedDriver}
   * into the alert; on success close the modal, clear the selection and
   * switch to the missions tab. A failed write ends the handler, leaving
   * the writes before it in place. Neither the alert's existence nor the
   * driver's availability is checked.
   */
  function Dispatch(c: Console, s: Store, driverId: string, fault: Fault): (r: Outcome)
    ensures c.selected.None? ==> r == Outcome(c, s)
    ensures c.selected.Some? && fault == DriverWriteFails ==> r == Outcome(c, s)
    ensures c.selected.Some? && fault == AlertWriteFails ==>
              && r.console == c
              && DriverAssigned(s.drivers, r.store.drivers, driverId, c.selected.value)
              && r.store.(drivers := s.drivers) == s
    ensures c.selected.Some? && fault == NoFault ==>
              && r.console == Console(None, false, MissionsTab)
              && DriverAssigned(s.drivers, r.store.drivers, driverId, c.selected.value)
              && AlertDispatchedTo(s.alerts, r.store.alerts, c.selected.value, driverId)
              && r.store.(drivers := s.drivers, alerts := s.alerts) == s
  {
    match c.selected
    case None => Outcome(c, s)
    case Some(p) =>
      if fault == DriverWriteFails then Outcome(c, s)
      else
        var s1 := PutDriver(s, driverId, DriverAt(s, driverId).(status := Some(DriverBusy), assignedTo := Some(p)));
        if fault == AlertWriteFails then Outcome(c, s1)
        else
          var s2 := PutAlert(s1, p, AlertAt(s1, p).(status := Some(AlertDispatched), assignedDriver := Some(driverId)));
          Outcome(Console(None, false, MissionsTab), s2)
  }

  /**
   * handleManualClear: once the operator confirms, remove the alert at
   * `patientId` and clear the selection. Drivers are not touched, so a
   * driver assigned to that patient stays busy and assigned.
   */
  function ManualClear(c: Console, s: Store, patientId: string, confirmed: bool): (r: Outcome)
    ensures !confirmed ==> r == Outcome(c, s)
    ensures confirmed ==>
              && patientId !in r.store.alerts
              && SameExcept(s.alerts, r.store.alerts, patientId)
              && r.store.(alerts := s.alerts) == s
              && r.console == c.(selected := None)
  {
    if confirmed then Outcome(c.(selected := None), s.(alerts := s.alerts - {patientId}))
    else Outcome(c, s)
  }

  /** Clearing an alert twice ends in the same store as clearing it once. */
  lemma ManualClearIdempotent(c: Console, s: Store, p: string)
    ensures var once := ManualClear(c, s, p, true);
            ManualClear(once.console, once.store, p, true) == once
  {
  }
}

=== FILE: driver_app.dfy ===
/**
 * The driver app: a five-stage local mission machine, the listener on the
 * driver's own record that starts a ring or cancels a mission, and the
 * handlers that write the driver's record and the alert it serves.
 */
module DriverApp {
  import opened Optional
  import opened SharedStore

  datatype Stage = Idle | Ringing | Accepted | Arrived | InProgress

  /** The patient details shown while a mission is open. */
  datatype Request = Request(id: string, name: string, phone: string, lat: Option<real>, lng: Option<real>)

  /** The app's local state; `me` is the signed-in driver's id. */
  datatype App = App(
    me: string,
    displayName: Option<string>,
    online: bool,
    stage: Stage,
    request: Option<Request>,
    earnings: int,
    rideCount: int)

  datatype Step = Step(app: App, store: Store)

  const Fare := 500
  const UnknownPatientName := "Emergency Patient"
  const UnknownPhone := "N/A"
  const DefaultUnitName := "Driver"
  const UnitKind := "Ambulance"
  const RegisteredLat: real := 23.8103
  const RegisteredLng: real := 90.4125

  /**
   * fetchPatientDetails: read the alert once; when it exists, open a request
   * and ring. The name falls back from the alert's user_name to the
   * patient's profile name to a fixed label; the phone falls back to "N/A";
   * the position is copied as stored.
   */
  function FetchPatientDetails(app: App, s: Store, patientId: string, profileName: Option<string>): (r: App)
    ensures patientId !in s.alerts ==> r == app
    ensures patientId in s.alerts ==>
              && r.stage == Ringing
              && r.request.Some?
              && r.request.value.id == patientId
              && r.request.value.name != ""
              && r.request.value.phone != ""
              && (Truthy(s.alerts[patientId].userName) ==> r.request.value.name == s.alerts[patientId].userName.value)
              && (!Truthy(s.alerts[patientId].userName) && Truthy(profileName) ==> r.request.value.name == profileName.value)
              && (!Truthy(s.alerts[patientId].userName) && !Truthy(profileName) ==> r.request.value.name == UnknownPatientName)
              && (Truthy(s.alerts[patientId].phone) ==> r.request.value.phone == s.alerts[patientId].phone.value)
              && (!Truthy(s.alerts[patientId].phone) ==> r.request.value.phone == UnknownPhone)
              && r.request.value.lat == s.alerts[patientId].lat
              && r.request.value.lng == s.alerts[patientId].lng
              && r.(stage := app.stage, request := app.request) == app
  {
    if patientId in s.alerts then
      var a := s.alerts[patientId];
      var name := Or(a.userName, Or(profileName, Some(UnknownPatientName))).value;
      var phone := Or(a.phone, Some(UnknownPhone)).value;
      app.(request := Some(Request(patientId, name, phone, a.lat, a.lng)), stage := Ringing)
    else app
  }

  /**
   * The listener on drivers/{me}: an assignment seen while idle fetches the
   * patient; a missing assignment seen outside idle cancels the mission.
   * It only reads the store.
   */
  function AssignmentChanged(app: App, s: Store, profileName: Option<string>): (r: App)
    ensures app.me !in s.drivers ==> r == app
    ensures app.me in s.drivers && Truthy(s.drivers[app.me].assignedTo) && app.stage == Idle ==>
              (r.stage == Ringing <==> s.drivers[app.me].assignedTo.value in s.alerts)
              && (r.stage == Ringing ==> r.request.Some? && r.request.value.id == s.drivers[app.me].assignedTo.value)
              && (r.stage != Ringing ==> r == app)
    ensures app.me in s.drivers && !Truthy(s.drivers[app.me].assignedTo) && app.stage != Idle ==>
              r == app.(stage := Idle, request := None)
    ensures app.me in s.drivers && (Truthy(s.drivers[app.me].assignedTo) <==> app.stage != Idle) ==> r == app
  {
    if app.me in s.drivers then
      var d := s.drivers[app.me];
      if Truthy(d.assignedTo) && app.stage == Idle then FetchPatientDetails(app, s, d.assignedTo.value, profileName)
      else if !Truthy(d.assignedTo) && app.stage != Idle then app.(stage := Idle, request := None)
      else app
    else app
  }

  /** The DECLINE button: drop the request locally; nothing is written. */
  function Decline(app: App): (r: App)
    ensures r.stage == Idle && r.request.None?
    ensures r.(stage := app.stage, request := app.request) == app
  {
    app.(stage := Idle, request := None)
  }

  /** handleAccept: the alert becomes DRIVER_ACCEPTED and the driver busy. */
  function Accept(app: App, s: Store): (r: Step)
    requires app.request.Some?
    ensures r.app == app.(stage := Accepted)
    ensures var p := app.request.value.id;
            && p in r.store.alerts
            && r.store.alerts[p].status == Some(AlertAccepted)
            && r.store.alerts[p].(status := AlertAt(s, p).status) == AlertAt(s, p)
            && SameExcept(s.alerts, r.store.alerts, p)
    ensures && app.me in r.store.drivers
            && r.store.drivers[app.me].status == Some(DriverBusy)
            && r.store.drivers[app.me].(status := DriverAt(s, app.me).status) == DriverAt(s, app.me)
            && SameExcept(s.drivers, r.store.drivers, app.me)
    ensures r.store.(alerts := s.alerts, drivers := s.drivers) == s
  {
    var s1 := PatchAlertStatus(s, app.request.value.id, AlertAccepted);
    var s2 := PutDriver(s1, app.me, DriverAt(s1, app.me).(status := Some(DriverBusy)));
    Step(app.(stage := Accepted), s2)
  }

  /** handleArrived: only the alert's status changes, to DRIVER_ARRIVED. */
  function Arrive(app: App, s: Store): (r: Step)
    requires app.request.Some?
    ensures r.app == app.(stage := Arrived)
    ensures var p := app.request.value.id;
            && p in r.store.alerts
            && r.store.alerts[p].status == Some(AlertArrived)
            && r.store.alerts[p].(status := AlertAt(s, p).status) == AlertAt(s, p)
            && SameExcept(s.alerts, r.store.alerts, p)
    ensures r.store.(alerts := s.alerts) == s
  {
    Step(app.(stage := Arrived), PatchAlertStatus(s, app.request.value.id, AlertArrived))
  }

  /** handleStartTrip: opens external navigation; the store is not written. */
  function StartTrip(app: App, s: Store): (r: Step)
    requires app.request.Some?
    ensures r.store == s
    ensures r.app == app.(stage := InProgress)
  {
    Step(app.(stage := InProgress), s)
  }

  /**
   * handleComplete: release the driver (no assignment, idle), mark the
   * alert RESOLVED without removing it, log one trip with the fixed fare,
   * and return to idle with the earnings and ride count raised.
   */
  function Complete(app: App, s: Store, now: int): (r: Step)
    requires app.request.Some?
    ensures var p := app.request.value.id;
            && p in r.store.alerts
            && r.store.alerts[p].status == Some(AlertResolved)
            && r.store.alerts[p].(status := AlertAt(s, p).status) == AlertAt(s, p)
            && SameExcept(s.alerts, r.store.alerts, p)
    ensures && app.me in r.store.drivers
            && r.store.drivers[app.me].status == Some(DriverIdle)
            && r.store.drivers[app.me].assignedTo.None?
            && r.store.drivers[app.me].(status := DriverAt(s, app.me).status, assignedTo := DriverAt(s, app.me).assignedTo)
               == DriverAt(s, app.me)
            && SameExcept(s.drivers, r.store.drivers, app.me)
    ensures && |r.store.trips| == |s.trips| + 1
            && r.store.trips[..|s.trips|] == s.trips
            && r.store.trips[|s.trips|] == Trip(app.me, app.request.value.id, now, Fare)
    ensures r.store.(alerts := s.alerts, drivers := s.drivers, trips := s.trips) == s
    ensures && r.app.earnings == app.earnings + Fare
            && r.app.rideCount == app.rideCount + 1
            && r.app.stage == Idle
            && r.app.request.None?
            && r.app.(earnings := app.earnings, rideCount := app.rideCount, stage := app.stage, request := app.request) == app
  {
    var p := app.request.value.id;
    var s1 := PutDriver(s, app.me, DriverAt(s, app.me).(assignedTo := None, status := Some(DriverIdle)));
    var s2 := PatchAlertStatus(s1, p, AlertResolved);
    var s3 := s2.(trips := s2.trips + [Trip(app.me, p, now, Fare)]);
    Step(app.(earnings := app.earnings + Fare, rideCount := app.rideCount + 1, stage := Idle, request := None), s3)
  }

  /** toggleStatus: flip the online flag and write idle or offline, whatever the mission stage. */
  function ToggleOnline(app: App, s: Store): (r: Step)
    ensures r.app == app.(online := !app.online)
    ensures && app.me in r.store.drivers
            && r.store.drivers[app.me].status == Some(if app.online then DriverOffline else DriverIdle)
            && r.store.drivers[app.me].(status := DriverAt(s, app.me).status) == DriverAt(s, app.me)
            && SameExcept(s.drivers, r.store.drivers, app.me)
    ensures r.store.(drivers := s.drivers) == s
  {
    var online := !app.online;
    Step(app.(online := online),
         PutDriver(s, app.me, DriverAt(s, app.me).(status := Some(if online then DriverIdle else DriverOffline))))
  }

  /**
   * A position fix: while online, merge position, name, type, a status
   * derived from the stage, and the time into the driver's record. The
   * assignment is never written here.
   */
  function PositionFix(app: App, s: Store, lat: real, lng: real, now: int): (r: Store)
    ensures !app.online ==> r == s
    ensures app.online ==>
              && app.me in r.drivers
              && (r.drivers[app.me].status == Some(DriverIdle) <==> app.stage == Idle)
              && (r.drivers[app.me].status == Some(DriverBusy) <==> app.stage != Idle)
              && r.drivers[app.me].lat == Some(lat) && r.drivers[app.me].lng == Some(lng)
              && r.drivers[app.me].lastUpdated == Some(now)
              && r.drivers[app.me].kind == Some(UnitKind)
              && r.drivers[app.me].name
                 == (if Truthy(app.displayName) then app.displayName else Some(DefaultUnitName))
              && r.drivers[app.me].assignedTo == DriverAt(s, app.me).assignedTo
              && SameExcept(s.drivers, r.drivers, app.me)
              && r.(drivers := s.drivers) == s
  {
    if app.online then
      PutDriver(s, app.me, DriverAt(s, app.me).(
        lat := Some(lat),
        lng := Some(lng),
        name := Or(app.displayName, Some(DefaultUnitName)),
        kind := Some(UnitKind),
        status := Some(if app.stage == Idle then DriverIdle else DriverBusy),
        lastUpdated := Some(now)))
    else s
  }

  /** Registration's `set` of drivers/{uid}: a fresh record, offline and unassigned. */
  function Register(s: Store, uid: string, name: string): (r: Store)
    ensures uid in r.drivers
    ensures r.drivers[uid].status == Some(DriverOffline)
    ensures r.drivers[uid].assignedTo.None?
    ensures r.drivers[uid].name == Some(name) && r.drivers[uid].kind == Some(UnitKind)
    ensures r.drivers[uid].lat == Some(RegisteredLat) && r.drivers[uid].lng == Some(RegisteredLng)
    ensures r.drivers[uid].lastUpdated.None?
    ensures SameExcept(s.drivers, r.drivers, uid)
    ensures r.(drivers := s.drivers) == s
  {
    PutDriver(s, uid, Driver(Some(name), Some(UnitKind), Some(DriverOffline), None,
                             Some(RegisteredLat), Some(RegisteredLng), None))
  }

  /** The online flag restored at sign-in: anything but a stored "offline" reads as online. */
  function RestoredOnline(s: Store, uid: string): bool
  {
    DriverAt(s, uid).status != Some(DriverOffline)
  }

  /** A freshly registered driver signs in offline; a driver with no record signs in online. */
  lemma RestoredOnlineCases(s: Store, uid: string, name: string)
    ensures !RestoredOnline(Register(s, uid, name), uid)
    ensures uid !in s.drivers ==> RestoredOnline(s, uid)
    ensures uid in s.drivers ==> (RestoredOnline(s, uid) <==> s.drivers[uid].status != Some(DriverOffline))
  {
  }

  /** The buttons of the mission panel. */
  datatype Action = DeclineButton | AcceptButton | ArrivedButton | StartGpsButton | CompleteButton

  /** The stage in which each button is rendered. */
  function SourceStage(a: Action): Stage
  {
    match a
    case DeclineButton => Ringing
    case AcceptButton => Ringing
    case ArrivedButton => Accepted
    case StartGpsButton => Arrived
    case CompleteButton => InProgress
  }

  /** A button is rendered only in its stage and only while a request is open. */
  predicate Offered(app: App, a: Action)
  {
    app.stage == SourceStage(a) && app.request.Some?
  }

  /** Pressing a button: None when the button is not on screen. */
  function Press(app: App, s: Store, a: Action, now: int): (r: Option<Step>)
    ensures r.Some? <==> app.stage == SourceStage(a) && app.request.Some?
  {
    if !Offered(app, a) then None
    else
      match a
      case DeclineButton => Some(Step(Decline(app), s))
      case AcceptButton => Some(Accept(app, s))
      case ArrivedButton => Some(Arrive(app, s))
      case StartGpsButton => Some(StartTrip(app, s))
      case CompleteButton => Some(Complete(app, s, now))
  }

  /** Everything that can move the driver app. */
  datatype Event =
    | Button(action: Action)
    | AssignmentFired(profileName: Option<string>)
    | Toggle
    | Fix(lat: real, lng: real)

  function Next(app: App, s: Store, e: Event, now: int): Option<Step>
  {
    match e
    case Button(a) => Press(app, s, a, now)
    case AssignmentFired(name) => Some(Step(AssignmentChanged(app, s, name), s))
    case Toggle => Some(ToggleOnline(app, s))
    case Fix(lat, lng) => Some(Step(app, PositionFix(app, s, lat, lng, now)))
  }

  /** The stage moves the app makes: the four forward moves, and the return to idle
      from any other stage (decline, completion, or the assignment being cleared). */
  predicate StageMove(from: Stage, to: Stage)
  {
    || from == to
    || (from == Idle && to == Ringing)
    || (from == Ringing && to == Accepted)
    || (from == Accepted && to == Arrived)
    || (from == Arrived && to == InProgress)
    || (from != Idle && to == Idle)
  }

  /** Every event moves the stage along StageMove, and only the listener leaves idle. */
  lemma StageTransitions(app: App, s: Store, e: Event, now: int)
    requires Next(app, s, e, now).Some?
    ensures StageMove(app.stage, Next(app, s, e, now).value.app.stage)
    ensures app.stage == Idle && Next(app, s, e, now).value.app.stage == Ringing ==>
              && e.AssignmentFired?
              && app.me in s.drivers
              && Truthy(s.drivers[app.me].assignedTo)
              && s.drivers[app.me].assignedTo.value in s.alerts
    ensures e.Button? ==> Next(app, s, e, now).value.app.stage == NextStage(e.action)
  {
  }

  /** Where each button leads. */
  function NextStage(a: Action): Stage
  {
    match a
    case DeclineButton => Idle
    case AcceptButton => Accepted
    case ArrivedButton => Arrived
    case StartGpsButton => InProgress
    case CompleteButton => Idle
  }
}

=== FILE: optional.dfy ===
/** Optional values: a store field that may be absent, or a reference that may be null. */
module Optional {

  datatype Option<T> = None | Some(value: T)
}

=== FILE: patient_app.dfy ===
/**
 * The patient app's writes into the dispatch flow: the SOS button, the
 * critical-keyword flag on outgoing chat messages, and two small integer
 * helpers (the savings deposit and the gestation week).
 */
module PatientApp {
  import opened Optional
  import opened SharedStore

  /** What pressing SOS leads to. */
  datatype SosOutcome =
    | NoGeolocation                                 // the device has no geolocation: a prompt, nothing written
    | SmsFallback(number: string, lat: real, lng: real)  // offline: an SMS to the emergency number, nothing written
    | Raised(store: Store)                          // online: the alert is set and the doctors notified

  const EmergencyNumber := "999"
  const SosKind := "SOS_EMERGENCY"
  const CriticalKind := "CRITICAL_AI_FLAG"
  const Unresolved := "unresolved"
  const UserRole := "user"

  /** The alert an SOS writes: position, RED, time, name and a contact phone; no driver. */
  function SosAlert(lat: real, lng: real, now: int, displayName: Option<string>,
                    profilePhone: Option<string>, email: Option<string>, contacts: seq<string>): Alert
  {
    Alert(Some(lat), Some(lng), Some(AlertRed), Some(now), displayName, Or(profilePhone, email), contacts, None)
  }

  /**
   * triggerSOS: online, `set` the patient's alert (a full overwrite, so any
   * earlier status or driver is gone) and push one SOS_EMERGENCY notice;
   * offline, fall back to an SMS and write nothing.
   */
  function TriggerSos(s: Store, uid: string, hasGeolocation: bool, online: bool, lat: real, lng: real, now: int,
                      displayName: Option<string>, profilePhone: Option<string>, email: Option<string>,
                      contacts: seq<string>): (r: SosOutcome)
    ensures !hasGeolocation ==> r == NoGeolocation
    ensures hasGeolocation && !online ==> r == SmsFallback(EmergencyNumber, lat, lng)
    ensures hasGeolocation && online ==>
              && r.Raised?
              && uid in r.store.alerts
              && r.store.alerts[uid].status == Some(AlertRed)
              && r.store.alerts[uid].assignedDriver.None?
              && r.store.alerts[uid].lat == Some(lat) && r.store.alerts[uid].lng == Some(lng)
              && r.store.alerts[uid].timestamp == Some(now)
              && r.store.alerts[uid].userName == displayName
              && (Truthy(profilePhone) ==> r.store.alerts[uid].phone == profilePhone)
              && (!Truthy(profilePhone) ==> r.store.alerts[uid].phone == email)
              && r.store.alerts[uid].notifiedContacts == contacts
              && SameExcept(s.alerts, r.store.alerts, uid)
              && |r.store.doctorAlerts| == |s.doctorAlerts| + 1
              && r.store.doctorAlerts[..|s.doctorAlerts|] == s.doctorAlerts
              && r.store.doctorAlerts[|s.doctorAlerts|]
                 == DoctorAlert(SosKind, uid, displayName, SosLocation(lat, lng), now, Some(Unresolved))
              && r.store.(alerts := s.alerts, doctorAlerts := s.doctorAlerts) == s
  {
    if !hasGeolocation then NoGeolocation
    else if !online then SmsFallback(EmergencyNumber, lat, lng)
    else
      var s1 := PutAlert(s, uid, SosAlert(lat, lng, now, displayName, profilePhone, email, contacts));
      var notice := DoctorAlert(SosKind, uid, displayName, SosLocation(lat, lng), now, Some(Unresolved));
      Raised(s1.(doctorAlerts := s1.doctorAlerts + [notice]))
  }

  /** Every character JavaScript's `trim` removes: WhiteSpace and LineTerminator. */
  predicate IsTrimmed(c: char)
  {
    || c == '\t' || c == '\n' || c == '\U{000B}' || c == '\U{000C}' || c == '\r' || c == ' '
    || c == '\U{00A0}' || c == '\U{1680}' || ('\U{2000}' <= c <= '\U{200A}')
    || c == '\U{2028}' || c == '\U{2029}' || c == '\U{202F}' || c == '\U{205F}'
    || c == '\U{3000}' || c == '\U{FEFF}'
  }

  /** `s` with its leading trimmable characters dropped. */
  function TrimStart(s: string): (r: string)
    ensures |r| <= |s| && r == s[|s| - |r|..]
    ensures forall i :: 0 <= i < |s| - |r| ==> IsTrimmed(s[i])
    ensures r != [] ==> !IsTrimmed(r[0])
  {
    if s != [] && IsTrimmed(s[0]) then TrimStart(s[1..]) else s
  }

  /** `s` with its trailing trimmable characters dropped. */
  function TrimEnd(s: string): (r: string)
    ensures |r| <= |s| && r == s[..|r|]
    ensures forall i :: |r| <= i < |s| ==> IsTrimmed(s[i])
    ensures r != [] ==> !IsTrimmed(r[|r| - 1])
  {
    if s != [] && IsTrimmed(s[|s| - 1]) then TrimEnd(s[..|s| - 1]) else s
  }

  /** JavaScript's `String.prototype.trim`. */
  function Trim(s: string): string
  {
    TrimEnd(TrimStart(s))
  }

  /** A string trims to nothing exactly when every character of it is trimmable. */
  lemma TrimEmptyIffBlank(s: string)
    ensures Trim(s) == [] <==> forall i :: 0 <= i < |s| ==> IsTrimmed(s[i])
  {
  }

  /** `w` occurs in `s` starting at index `i`. */
  predicate OccursAt(w: string, s: string, i: int)
  {
    0 <= i && i + |w| <= |s| && s[i..i + |w|] == w
  }

  /** An occurrence in `s[1..]` is an occurrence in `s` one index later, and back. */
  lemma OccursShift(w: string, s: string)
    requires s != []
    ensures (exists i :: OccursAt(w, s, i)) <==> OccursAt(w, s, 0) || exists j :: OccursAt(w, s[1..], j)
  {
    if exists i :: OccursAt(w, s, i) {
      var i :| OccursAt(w, s, i);
      if i > 0 {
        assert s[1..][i - 1..i - 1 + |w|] == s[i..i + |w|];
        assert OccursAt(w, s[1..], i - 1);
      }
    }
    if exists j :: OccursAt(w, s[1..], j) {
      var j :| OccursAt(w, s[1..], j);
      assert s[j + 1..j + 1 + |w|] == s[1..][j..j + |w|];
      assert OccursAt(w, s, j + 1);
    }
  }

  /** JavaScript's `s.includes(w)`: a case-sensitive substring test. */
  function Includes(s: string, w: string): (r: bool)
    ensures r <==> exists i :: OccursAt(w, s, i)
    decreases |s|
  {
    if |s| < |w| then false
    else if s[..|w|] == w then assert OccursAt(w, s, 0); true
    else OccursShift(w, s); Includes(s[1..], w)
  }

  const CriticalWords: seq<string> := ["bleeding", "pain", "fainted"]

  /** A message is critical when one of the keywords occurs in it verbatim. */
  function IsCritical(content: string): (r: bool)
    ensures r <==> exists w, i :: w in CriticalWords && OccursAt(w, content, i)
  {
    Includes(content, "bleeding") || Includes(content, "pain") || Includes(content, "fainted")
  }

  /** The keyword test does not fold case. */
  lemma CriticalIsCaseSensitive()
    ensures IsCritical("pain")
    ensures !IsCritical("Pain")
  {
    assert OccursAt("pain", "pain", 0);
    assert "Pain"[..4][0] == 'P';
    assert !Includes("ain", "pain");
  }

  /**
   * sendMessage: input that trims to nothing is ignored. Otherwise a
   * critical message pushes one CRITICAL_AI_FLAG notice carrying the text
   * as typed, and a message to a doctor is pushed to chats/{uid}; a message
   * to the assistant writes nothing more.
   */
  function SendMessage(s: Store, uid: string, displayName: Option<string>, input: string, now: int,
                       toDoctor: bool): (r: Option<Store>)
    ensures r.None? <==> forall i :: 0 <= i < |input| ==> IsTrimmed(input[i])
    ensures r.Some? && IsCritical(input) ==>
              r.value.doctorAlerts == s.doctorAlerts + [DoctorAlert(CriticalKind, uid, displayName, Verbatim(input), now, None)]
    ensures r.Some? && !IsCritical(input) ==> r.value.doctorAlerts == s.doctorAlerts
    ensures r.Some? && toDoctor ==>
              && uid in r.value.chats
              && r.value.chats[uid] == (if uid in s.chats then s.chats[uid] else []) + [ChatMessage(UserRole, input, now)]
              && SameExcept(s.chats, r.value.chats, uid)
    ensures r.Some? && !toDoctor ==> r.value.chats == s.chats
    ensures r.Some? ==> r.value.(doctorAlerts := s.doctorAlerts, chats := s.chats) == s
  {
    TrimEmptyIffBlank(input);
    if Trim(input) == [] then None
    else
      var s1 := if IsCritical(input)
                then s.(doctorAlerts := s.doctorAlerts + [DoctorAlert(CriticalKind, uid, displayName, Verbatim(input), now, None)])
                else s;
      var msg := ChatMessage(UserRole, input, now);
      if toDoctor then Some(s1.(chats := s1.chats[uid := (if uid in s1.chats then s1.chats[uid] else []) + [msg]]))
      else Some(s1)
  }

  const MsPerWeek := 1000 * 60 * 60 * 24 * 7

  /**
   * saveProfile's week: 1 without a last-period date, otherwise the whole
   * weeks elapsed since it, rounded down (negative for a future date).
   */
  function GestationWeek(lmp: Option<int>, now: int): (week: int)
    ensures lmp.None? ==> week == 1
    ensures lmp.Some? ==> week * 604800000 <= now - lmp.value < (week + 1) * 604800000
  {
    match lmp
    case None => 1
    case Some(start) => (now - start) / MsPerWeek
  }

  /** The week never goes down as time passes. */
  lemma GestationWeekMonotone(lmp: Option<int>, now1: int, now2: int)
    requires now1 <= now2
    ensures GestationWeek(lmp, now1) <= GestationWeek(lmp, now2)
  {
  }

  /** A last-period date of right now gives week 0, below the default of 1. */
  lemma GestationWeekOnTheDay(t: int)
    ensures GestationWeek(Some(t), t) == 0
    ensures GestationWeek(Some(t), t + 604800000 - 1) == 0
    ensures GestationWeek(Some(t), t + 604800000) == 1
  {
  }

  const DepositStep := 50

  /** The saved amount of `uid`; a missing record counts as 0, as the store's increment does. */
  function Saved(s: Store, uid: string): int
  {
    if uid in s.savings then s.savings[uid].current else 0
  }

  /** addDeposit: an atomic increment of the current savings by 50; the goal is untouched. */
  function Deposit(s: Store, uid: string): (r: Store)
    ensures Saved(r, uid) == Saved(s, uid) + DepositStep
    ensures uid in r.savings
    ensures r.savings[uid].goal == (if uid in s.savings then s.savings[uid].goal else None)
    ensures SameExcept(s.savings, r.savings, uid)
    ensures r.(savings := s.savings) == s
  {
    var before := if uid in s.savings then s.savings[uid] else Savings(0, None);
    s.(savings := s.savings[uid := before.(current := before.current + DepositStep)])
  }

  /** `n` deposits in a row. */
  function Deposits(s: Store, uid: string, n: nat): Store
  {
    if n == 0 then s else Deposit(Deposits(s, uid, n - 1), uid)
  }

  /** `n` deposits add exactly `DepositStep * n` and leave the goal where it was (none, for a missing record). */
  lemma {:induction false} DepositsAccumulate(s: Store, uid: string, n: nat)
    ensures Saved(Deposits(s, uid, n), uid) == Saved(s, uid) + DepositStep * n
    ensures uid in s.savings || n > 0 ==> uid in Deposits(s, uid, n).savings
    ensures uid in Deposits(s, uid, n).savings ==>
              Deposits(s, uid, n).savings[uid].goal == (if uid in s.savings then s.savings[uid].goal else None)
  {
    if n > 0 {
      DepositsAccumulate(s, uid, n - 1);
    }
  }
}

=== FILE: scenarios.dfy ===
/**
 * What the three clients do to each other through the one shared store,
 * stated as the handlers are written: the console's lists after each
 * mission step, the driver's reaction to a dispatch, and the places where
 * nothing enforces exclusivity or releases a driver.
 */
module Scenarios {
  import opened Optional
  import opened SharedStore
  import opened DoctorConsole
  import opened DriverApp
  import opened PatientApp

  /** The entry for `id` in any listing of `m` is the record `m[id]`. */
  lemma EntryOf<T>(l: seq<Entry<T>>, m: map<string, T>, id: string)
    requires IsListing(l, m)
    requires id in m
    ensures Entry(id, m[id]) in l
    ensures forall e :: e in l && e.id == id ==> e == Entry(id, m[id])
  {
  }

  /** An online SOS shows up in triage, unassigned, and not among the missions. */
  lemma SosShowsInTriage(s: Store, uid: string, lat: real, lng: real, now: int, name: Option<string>,
                         phone: Option<string>, email: Option<string>, contacts: seq<string>,
                         s': Store, l: seq<Entry<Alert>>)
    requires TriggerSos(s, uid, true, true, lat, lng, now, name, phone, email, contacts) == Raised(s')
    requires IsListing(l, s'.alerts)
    ensures exists e :: e in TriageList(l) && e.id == uid && e.record.assignedDriver.None?
    ensures forall e :: e in l && e.id == uid ==> e !in MissionsList(l)
  {
  }

  /** A successful dispatch moves the alert from triage to missions and takes the driver off offer. */
  lemma DispatchMovesToMissions(c: Console, s: Store, p: string, d: string,
                                l: seq<Entry<Alert>>, dl: seq<Entry<Driver>>)
    requires c.selected == Some(p)
    requires IsListing(l, Dispatch(c, s, d, NoFault).store.alerts)
    requires IsListing(dl, Dispatch(c, s, d, NoFault).store.drivers)
    ensures exists e :: e in MissionsList(l) && e.id == p && e.record.assignedDriver == Some(d)
    ensures forall e :: e in l && e.id == p ==> e !in TriageList(l)
    ensures forall e :: e in dl && e.id == d ==> e !in AvailableDrivers(dl)
  {
  }

  /**
   * Dispatching to an alert that is gone recreates it as a stub holding
   * only the dispatch fields: no position, time, name or phone.
   */
  lemma DispatchRecreatesGoneAlert(c: Console, s: Store, p: string, d: string)
    requires c.selected == Some(p) && p !in s.alerts
    ensures Dispatch(c, s, d, NoFault).store.alerts[p]
            == Alert(None, None, Some(AlertDispatched), None, None, None, [], Some(d))
  {
  }

  /**
   * Nothing stops a second dispatch of a busy driver: its assignment is
   * overwritten while the first alert still names it.
   */
  lemma DispatchOverwritesAssignment(c: Console, s: Store, p: string, q: string, d: string)
    requires c.selected == Some(p) && p != q
    requires d in s.drivers && s.drivers[d].assignedTo == Some(q) && s.drivers[d].status == Some(DriverBusy)
    requires q in s.alerts && s.alerts[q].assignedDriver == Some(d)
    ensures var s' := Dispatch(c, s, d, NoFault).store;
            && s'.drivers[d].assignedTo == Some(p)
            && s'.alerts[q].assignedDriver == Some(d)
            && s'.alerts[p].assignedDriver == Some(d)
  {
  }

  /** The driver write landing without the alert write leaves a busy driver on an untouched alert. */
  lemma HalfDispatch(c: Console, s: Store, p: string, d: string)
    requires c.selected == Some(p)
    ensures var s' := Dispatch(c, s, d, AlertWriteFails).store;
            && s'.drivers[d].status == Some(DriverBusy)
            && s'.drivers[d].assignedTo == Some(p)
            && s'.alerts == s.alerts
  {
  }

  /**
   * Once both writes of a dispatch have landed, the dispatched driver's
   * listener rings with the dispatched patient, even when the alert had been
   * removed (the alert write recreated it).
   */
  lemma DispatchRingsDriver(c: Console, s: Store, p: string, app: App, profileName: Option<string>)
    requires c.selected == Some(p)
    requires app.stage == Idle && p != ""
    ensures var s' := Dispatch(c, s, app.me, NoFault).store;
            var app' := AssignmentChanged(app, s', profileName);
            && app'.stage == Ringing
            && app'.request.Some?
            && app'.request.value.id == p
  {
  }

  /**
   * The console lists only DISPATCHED missions, so once the driver
   * accepts, the alert drops out of both lists.
   */
  lemma AcceptLeavesBothLists(app: App, s: Store, l: seq<Entry<Alert>>)
    requires app.request.Some?
    requires IsListing(l, Accept(app, s).store.alerts)
    ensures forall e :: e in l && e.id == app.request.value.id ==> e !in TriageList(l) && e !in MissionsList(l)
  {
  }

  /**
   * Completion keeps the alert, marked RESOLVED and listed nowhere, and
   * puts the driver back on offer.
   */
  lemma CompleteKeepsAlert(app: App, s: Store, now: int, l: seq<Entry<Alert>>, dl: seq<Entry<Driver>>)
    requires app.request.Some?
    requires IsListing(l, Complete(app, s, now).store.alerts)
    requires IsListing(dl, Complete(app, s, now).store.drivers)
    ensures app.request.value.id in Complete(app, s, now).store.alerts
    ensures forall e :: e in l && e.id == app.request.value.id ==> e !in TriageList(l) && e !in MissionsList(l)
    ensures exists e :: e in AvailableDrivers(dl) && e.id == app.me && e.record.assignedTo.None?
  {
  }

  /**
   * A manual clear leaves an assigned driver busy and assigned, and its
   * listener does not notice: the driver app stays where it was.
   */
  lemma ClearLeavesDriverAssigned(c: Console, s: Store, p: string, app: App, profileName: Option<string>)
    requires app.me in s.drivers && s.drivers[app.me].assignedTo == Some(p) && p != ""
    ensures var s' := ManualClear(c, s, p, true).store;
            && s'.drivers[app.me] == s.drivers[app.me]
            && AssignmentChanged(app, s', profileName) == app
  {
  }

  /** Accepting after the alert was cleared recreates it with only the DRIVER_ACCEPTED status. */
  lemma AcceptAfterClear(c: Console, s: Store, app: App)
    requires app.request.Some?
    ensures var s' := ManualClear(c, s, app.request.value.id, true).store;
            Accept(app, s').store.alerts[app.request.value.id] == NoAlert.(status := Some(AlertAccepted))
  {
  }

  /**
   * Declining writes nothing, so the assignment is still there: the next
   * time the listener fires it rings again for the same patient.
   */
  lemma DeclineRingsAgain(app: App, s: Store, profileName: Option<string>)
    requires app.stage == Ringing && app.request.Some?
    requires app.me in s.drivers && Truthy(s.drivers[app.me].assignedTo)
    requires s.drivers[app.me].assignedTo.value in s.alerts
    ensures var app' := AssignmentChanged(Decline(app), s, profileName);
            app'.stage == Ringing && app'.request.value.id == s.drivers[app.me].assignedTo.value
  {
  }

  /**
   * Going offline mid-mission writes "offline" over "busy", and coming back
   * writes "idle": either way the driver is offered for dispatch again while
   * still assigned.
   */
  lemma ToggleMidMissionReoffers(app: App, s: Store, dl: seq<Entry<Driver>>)
    requires app.stage != Idle
    requires IsListing(dl, ToggleOnline(app, s).store.drivers)
    ensures var s' := ToggleOnline(app, s).store;
            && s'.drivers[app.me].assignedTo == DriverAt(s, app.me).assignedTo
            && Entry(app.me, s'.drivers[app.me]) in AvailableDrivers(dl)
  {
  }

  /** A new SOS over a resolved alert puts the patient back in triage with no driver. */
  lemma SosAfterResolved(s: Store, uid: string, lat: real, lng: real, now: int, name: Option<string>,
                         phone: Option<string>, email: Option<string>, contacts: seq<string>, s': Store)
    requires uid in s.alerts && s.alerts[uid].status == Some(AlertResolved)
    requires TriggerSos(s, uid, true, true, lat, lng, now, name, phone, email, contacts) == Raised(s')
    ensures ShownInTriage(s'.alerts[uid]) && s'.alerts[uid].assignedDriver.None?
  {
  }

  /**
   * A position fix re-derives the status from the stage: a driver who went
   * offline mid-mission and comes back online is shown idle by the toggle,
   * and the next fix writes busy again.
   */
  lemma FixRestoresBusyAfterToggle(app: App, s: Store, lat: real, lng: real, now: int)
    requires app.stage != Idle && !app.online
    ensures var t := ToggleOnline(app, s);
            && t.store.drivers[app.me].status == Some(DriverIdle)
            && PositionFix(t.app, t.store, lat, lng, now).drivers[app.me].status == Some(DriverBusy)
  {
  }

  /**
   * The listener already fires on the driver write alone, before the alert
   * write. At that point it rings exactly when the alert still exists; for a
   * removed alert it does nothing.
   */
  lemma DriverWriteAloneRings(c: Console, s: Store, p: string, app: App, profileName: Option<string>)
    requires c.selected == Some(p)
    requires app.stage == Idle && p != ""
    ensures var s' := Dispatch(c, s, app.me, AlertWriteFails).store;
            var app' := AssignmentChanged(app, s', profileName);
            && (p in s.alerts ==> app'.stage == Ringing && app'.request.value.id == p)
            && (p !in s.alerts ==> app' == app)
  {
  }
}

=== FILE: shared_store.dfy ===
/**
 * The shared real-time store that the patient app, the doctor console and the
 * driver app read and write. Each path the dispatch flow touches is one
 * component of `Store`:
 *
 *   sos_alerts/{patientId}   ->  alerts
 *   drivers/{driverId}       ->  drivers
 *   doctor_alerts (push)     ->  doctorAlerts, append-only
 *   trips (addDoc)           ->  trips, append-only
 *   chats/{patientId} (push) ->  chats, append-only per patient
 *   users/{uid}/savings      ->  savings
 *
 * Every field of a stored record is optional, except `Savings.current`
 * (an `int`: the increment counts from 0) and `Alert.notifiedContacts` (a
 * sequence, empty when absent): the store's `update` is a merge-patch that
 * creates a record from nothing when its path is absent, so a record may
 * hold only the fields some write happened to name.
 */
module SharedStore {
  import opened Optional

  // Status strings written under sos_alerts/{patientId}/status.
  const AlertRed := "RED"
  const AlertDispatched := "DISPATCHED"
  const AlertAccepted := "DRIVER_ACCEPTED"
  const AlertArrived := "DRIVER_ARRIVED"
  const AlertResolved := "RESOLVED"

  // Status strings written under drivers/{driverId}/status.
  const DriverBusy := "busy"
  const DriverIdle := "idle"
  const DriverOffline := "offline"

  /** JavaScript truthiness of an optional string field: absent and "" are falsy. */
  predicate Truthy(f: Option<string>)
  {
    f.Some? && f.value != ""
  }

  /** JavaScript's `f || fallback` on optional string fields. */
  function Or(f: Option<string>, fallback: Option<string>): Option<string>
  {
    if Truthy(f) then f else fallback
  }

  /** One record under sos_alerts/{patientId}. `notifiedContacts` is empty when absent. */
  datatype Alert = Alert(
    lat: Option<real>,
    lng: Option<real>,
    status: Option<string>,
    timestamp: Option<int>,
    userName: Option<string>,
    phone: Option<string>,
    notifiedContacts: seq<string>,
    assignedDriver: Option<string>)

  /** What a merge-patch starts from when the alert path is absent. */
  const NoAlert := Alert(None, None, None, None, None, None, [], None)

  /** One record under drivers/{driverId}; `kind` is the stored `type` field. */
  datatype Driver = Driver(
    name: Option<string>,
    kind: Option<string>,
    status: Option<string>,
    assignedTo: Option<string>,
    lat: Option<real>,
    lng: Option<real>,
    lastUpdated: Option<int>)

  /** What a merge-patch starts from when the driver path is absent. */
  const NoDriver := Driver(None, None, None, None, None, None, None)

  /** The text of a doctor-facing notification: the SOS template carries the position. */
  datatype NoticeText = SosLocation(lat: real, lng: real) | Verbatim(text: string)

  /** One entry pushed to doctor_alerts; `kind` is the stored `type` field. */
  datatype DoctorAlert = DoctorAlert(
    kind: string,
    patientId: string,
    patientName: Option<string>,
    message: NoticeText,
    timestamp: int,
    status: Option<string>)

  /** One completed ride, added to the trips collection. */
  datatype Trip = Trip(driverId: string, patientId: string, timestamp: int, fare: int)

  /** One message pushed to chats/{patientId}. */
  datatype ChatMessage = ChatMessage(role: string, content: string, timestamp: int)

  /** users/{uid}/savings. */
  datatype Savings = Savings(current: int, goal: Option<int>)

  datatype Store = Store(
    alerts: map<string, Alert>,
    drivers: map<string, Driver>,
    doctorAlerts: seq<DoctorAlert>,
    trips: seq<Trip>,
    chats: map<string, seq<ChatMessage>>,
    savings: map<string, Savings>)

  /** The alert at `id`, or the empty record a merge-patch would start from. */
  function AlertAt(s: Store, id: string): Alert
  {
    if id in s.alerts then s.alerts[id] else NoAlert
  }

  /** The driver at `id`, or the empty record a merge-patch would start from. */
  function DriverAt(s: Store, id: string): Driver
  {
    if id in s.drivers then s.drivers[id] else NoDriver
  }

  /** `set` or `update` of one alert path: the record at `id` becomes `a`. */
  function PutAlert(s: Store, id: string, a: Alert): Store
  {
    s.(alerts := s.alerts[id := a])
  }

  /** `set` or `update` of one driver path: the record at `id` becomes `d`. */
  function PutDriver(s: Store, id: string, d: Driver): Store
  {
    s.(drivers := s.drivers[id := d])
  }

  /** `update(sos_alerts/{id}, {status})`: only the status field of that one alert changes. */
  function PatchAlertStatus(s: Store, id: string, status: string): (r: Store)
    ensures id in r.alerts && r.alerts[id].status == Some(status)
    ensures r.alerts[id].(status := AlertAt(s, id).status) == AlertAt(s, id)
    ensures SameExcept(s.alerts, r.alerts, id)
    ensures r.(alerts := s.alerts) == s
  {
    PutAlert(s, id, AlertAt(s, id).(status := Some(status)))
  }

  /** `m` and `m'` agree on every key other than `key`: same presence, same record. */
  ghost predicate SameExcept<T>(m: map<string, T>, m': map<string, T>, key: string)
  {
    forall k :: k != key ==> (k in m <==> k in m') && (k in m ==> m[k] == m'[k])
  }
}
